=== FILE: README.md ===
# chopin — a Dafny model of the catalogue core

This project models the core of the `chopin` Python library, a catalogue of
Chopin's compositions with YouTube recordings attached to them:

- `Content` (a recording): its URL and default download path derived from
  its id, its artist tag (`str`), its dictionary form, and the
  download/remove life cycle, as pure functions over a `State` that pairs the
  content with the set of files that exist (module `Contents`, `contents.dfy`);
- `Composition` (a work): the title-hash integrity gate at construction, its
  display string (`str`), its dictionary form and the file name built from
  one of its recordings (module `Compositions`, `compositions.dfy`);
- `Chopin` (the catalogue): the join of composition records with recording
  records by title, and the random choices of `get`, `url` and `download`
  (module `Chopin`, `chopin.dfy`).

Supporting modules model the Python built-ins the core relies on:
`str.replace`, `str.join`, `startswith`/`endswith` (`Strings`), `str(int)`
with a reader that inverts it (`Decimal`), and the library's exceptions as an
`Error` datatype inside a `Result` (`Errors`).

Modelling choices:

- The MD5 hex digest of the UTF-8 encoded title is a function parameter
  `digest: string -> string`; nothing about MD5 itself is assumed.
- The filesystem is a `set<string>` of existing paths; `exists(p)` is
  `p in files`, `os.remove(p)` removes `p` from the set.
- The YouTube extractor is a boolean `extractorOk`: whether it succeeds.
  On success the file at the effective path exists afterwards when the
  output template puts it there (`SavesAt`).
- `random.choice` is a nondeterministic choice (`:|`): the contracts say
  which values can come out, not how likely they are.
- A Python exception is an `Err` result. A failed `download` or `remove`
  returns no new state, so the caller keeps the content and files it had,
  which is what the Python object does when the method raises.
- `Chopin.download` mutates a `Content` object that the catalogue shares;
  the model returns the updated catalogue instead.
- `index % n` in `filename`: for a positive `n`, Python's floored remainder
  and Dafny's Euclidean remainder agree, so Dafny's `%` is used directly.

The model follows the code: a single bad hash aborts the whole catalogue
build (there is no per-record error list); `get` on an empty catalogue raises
the `IndexError` of `random.choice`, and on a non-empty catalogue without
recordings it never returns (modelled as a precondition); the file name is
sanitised by turning spaces into `_` first and only then deleting `Op.` and
`No.`; and the code has no genre filtering and no deep copying.

`Content.download` builds the extractor's output template by replacing
every `.mp3` in the path, not only the final extension. When `.mp3` also
occurs earlier in the path (a directory such as `/m.mp3s/`), the extracted
file does not land at the path the content records, and a later `remove`
fails because the file does not exist. The model keeps this behaviour:
`SavesAt` says when the file lands at the recorded path, and the file set
grows only in that case.

## Model

| member | source | states |
|---|---|---|
| Contents.NewContent | chopin/contents.py:35-50 | a fresh content keeps id and artists, is not downloaded, and its path is `/tmp/` + id + `.mp3`, from which the id can be cut back out |
| Contents.UrlIdentifiesContent | chopin/contents.py:48 | the URL is `https://youtu.be/` followed by the id: the id reads back from the URL, so different ids give different URLs |
| Contents.ToString | chopin/contents.py:68-69 | the artist tag has no spaces, is one longer than the `&`-joined artists, ends with `&`, is exactly `&` with no artists, has `_` wherever the joined text has a space, and keeps every other character of the joined text in place |
| Contents.DictRoundTrip | chopin/contents.py:71-75 | rebuilding from `__dict__` keeps id, artists and URL, resets to the fresh state, and reproduces a fresh content exactly |
| Contents.WithMp3 | chopin/contents.py:93-94 | the normalised path ends with `.mp3` and is the given path itself or the given path with `.mp3` appended whole |
| Contents.WithMp3Idempotent | chopin/contents.py:93-94 | normalising twice is normalising once; a path is left alone exactly when it already ends with `.mp3` |
| Contents.EffectivePath | chopin/contents.py:90-94 | the download path is the given path, or the content's current path when none is given, with `.mp3` appended exactly when it does not already end with it; for a fresh content and no path it is the default path |
| Contents.Download | chopin/contents.py:77-115 | fails exactly when the file exists without `force` (file-already-exists) or the extractor fails; on success the content sits at the effective path, is downloaded and keeps id and artists, and the effective path is added to the files exactly when the extractor saves there |
| Contents.DefaultPathSavesAt | chopin/contents.py:49 | the default path `/tmp/{id}.mp3` of an id without a dot is where the extractor saves |
| Contents.MisplacedOutput | chopin/contents.py:101 | for `/m.mp3s/a.mp3` the template rewrites the directory too, so the extractor does not save at that path |
| Contents.Remove | chopin/contents.py:117-129 | fails when nothing was downloaded or the file is gone, with the matching reason; otherwise deletes exactly that file, clears the flag and keeps the path |
| Contents.NewContentConsistent | chopin/contents.py:46-50 | a fresh content satisfies the invariant "downloaded implies its file exists" |
| Contents.RemoveOnConsistent | chopin/contents.py:117-129 | under that invariant `remove` fails only when nothing was downloaded |
| Contents.DownloadThenRemove | chopin/contents.py:99-129 | after a successful download to a path where the extractor saves, `remove` succeeds, deletes the downloaded file and leaves the content at the new path, not downloaded |
| Contents.DownloadElsewhereThenRemove | chopin/contents.py:101-124 | when the extractor saves elsewhere and nothing was at the path before, the download succeeds but the following `remove` fails with file-does-not-exist |
| Compositions.NewComposition | chopin/compositions.py:31-41 | construction succeeds iff the hash is the digest of the title, else `InvalidHashValue`; the result keeps every argument and holds one fresh content per dictionary, in order |
| Compositions.ToString | chopin/compositions.py:67-73 | the display string starts with the title and ` Op.`, and for an integer opus the rest reads back to exactly the opus, sub-opus and number |
| Compositions.DictRoundTrip | chopin/compositions.py:75-83 | a valid composition with fresh recordings is rebuilt exactly from `__dict__` once its recordings go back through their own `__dict__`; `Composition(**c.__dict__())` itself would raise `TypeError`, because `youtube_dls` in `__dict__` holds `Content` objects and the constructor calls `Content(**ydl)` on each |
| Compositions.ToStringParts | chopin/compositions.py:67-73 | for every kind of opus, the display string is the title, ` Op.` and the opus as written, followed by text that reads back to exactly the sub-opus and the number |
| Compositions.ReadSubOpusExact | chopin/compositions.py:69-70 | the sub-opus reader accepts only `-` followed by `str` of the value it returns |
| Compositions.ReadNoExact | chopin/compositions.py:71-72 | the number reader accepts only ` No.` followed by `str` of the value it returns |
| Compositions.ReadNumberingExact | chopin/compositions.py:67-73 | the numbering reader accepts only the exact numbering text of what it returns, so together with `NumberingRoundTrip` it inverts the display string's numbering |
| Compositions.NumberingRoundTrip | chopin/compositions.py:67-73 | the text after `Op.` for an integer opus, with optional `-sub_opus` and ` No.no`, reads back to exactly those three parts |
| Compositions.ToStringInjective | chopin/compositions.py:67-73 | for one title and integer opus numbers, equal display strings mean equal opus, sub-opus and number |
| Decimal.NatToDecimal | chopin/compositions.py:68-72 | the decimal text of a number is non-empty, all digits, starts with `0` only when it is exactly `0`, and denotes the number |
| Decimal.IntToDecimal | chopin/compositions.py:68-72 | `str(n)` is non-empty, has no space, dot or `&`, starts with `-` exactly for negative numbers, and after that sign holds digits that denote `|n|` with no leading zero |
| Decimal.ReadIntExact | chopin/compositions.py:68-72 | the integer reader accepts only text `str` writes: what it reads is exactly `str` of the value it returns, so padded digits and `-0` are rejected |
| Decimal.ReadIntRoundTrip | chopin/compositions.py:68-72 | `str(n)` of any integer, followed by a non-digit, reads back to `n` and its length |
| Compositions.DotExt | chopin/compositions.py:102-103 | the extension is returned as is when it starts with a dot, and with a dot put in front otherwise |
| Compositions.DotExtIdempotent | chopin/compositions.py:102-103 | dot-prefixing twice is dot-prefixing once |
| Compositions.Sanitize | chopin/compositions.py:105 | the sanitised name contains no space and every character in it is `_` or comes from the input; text without `O` and `N` comes back with each space turned into `_` and nothing else changed, and text without spaces, `O` and `N` comes back unchanged; the `Op.` and `No.` deletions are stated by `SanitizeDropsOp` and `SanitizeDropsNo` |
| Compositions.Filename | chopin/compositions.py:85-105 | fails with a division by zero exactly when there are no recordings; otherwise the file name contains no space |
| Compositions.SanitizeDropsOp | chopin/compositions.py:105 | a leading `Op.` is deleted: sanitising `"Op." + b` gives the same as sanitising `b` |
| Compositions.SanitizeDropsNo | chopin/compositions.py:105 | a leading `No.` is deleted: sanitising `"No." + b` gives the same as sanitising `b` |
| Compositions.SanitizeDisplayString | chopin/compositions.py:105 | the display string becomes the sanitised title, `_`, the opus and sub-opus (sanitised; for an integer opus kept as written), and `_` plus the number when there is one: `"Nocturne Op.9 No.2"` becomes `"Nocturne_9_2"` |
| Compositions.SanitizeNocturne | chopin/compositions.py:105 | the display string `Nocturne Op.9 No.2` is sanitised to `Nocturne_9_2`: the `No` of the title survives, `Op.` and `No.` go |
| Compositions.SanitizeSplitsAtSpace | chopin/compositions.py:105 | sanitising acts separately on either side of a space, which itself becomes `_` |
| Compositions.FilenameParts | chopin/compositions.py:85-105 | the file name is the sanitised display string, `_`, the sanitised `&`-join of the chosen recording's artists, `&` and the sanitised dotted extension |
| Compositions.FilenameWrapsAround | chopin/compositions.py:99-100 | any integer index, negative or huge, picks an in-range recording and names the same file as its remainder |
| Compositions.FilenameDotInsensitive | chopin/compositions.py:102-103 | giving the extension with or without its dot yields the same file name |
| Compositions.FilenameMp3Dotted | chopin/compositions.py:102-103 | `filename(i, "mp3") == filename(i, ".mp3")` |
| Compositions.FilenameKeepsExtension | chopin/compositions.py:99-105 | for an extension without spaces, `O` or `N` (such as `mp3`), the file name ends with `&` and the dotted extension |
| Compositions.SanitizeSplitsAtAmpersand | chopin/compositions.py:105 | the three replacement passes act independently on the text before and after an `&` |
| Strings.ReplaceLength | chopin/compositions.py:105 | `str.replace` keeps the length when the replacement is as long as the pattern, never lengthens with a shorter one, and with an empty pattern inserts the replacement at all `len(s) + 1` gaps |
| Strings.Join | chopin/contents.py:69 | `sep.join(parts)` is empty for no parts and otherwise starts with the first part and ends with the last |
| Strings.JoinAppend | chopin/contents.py:69 | joining one more part appends the separator and that part, so the join holds every part in order with `sep` between neighbours |
| Strings.JoinLength | chopin/contents.py:69 | the join is as long as all the parts plus one separator per pair of neighbours |
| Strings.ReplaceOneChar | chopin/contents.py:69 | replacing one character by another keeps the length and changes exactly the positions holding that character |
| Strings.ReplaceChars | chopin/compositions.py:105 | `replace` introduces no character foreign to both the text and the replacement |
| Strings.ReplaceSplits | chopin/compositions.py:105 | when the seam character does not occur in the pattern, `replace` works on the two halves independently |
| Chopin.Matching | chopin/chopin.py:33-39 | the title join is never longer than the recording list and is empty exactly when no record has the title |
| Chopin.MatchingAppend | chopin/chopin.py:33-39 | the title join keeps the order of the recording list: it distributes over concatenation |
| Chopin.MatchingSound | chopin/chopin.py:33-39 | every joined recording is the `{id, artists}` of a record with that title |
| Chopin.MatchingComplete | chopin/chopin.py:33-39 | every record with that title is joined |
| Chopin.MatchingIgnoresOtherTitles | chopin/chopin.py:34-35 | a record with another title has no effect on the join |
| Chopin.CollectContents | chopin/chopin.py:33-39 | the inner loop computes exactly the title join |
| Chopin.Build | chopin/chopin.py:30-42 | succeeds iff every record's hash matches its title (else `InvalidHashValue`); yields one composition per record, in order, each built from its record and its title join, all with valid hashes |
| Chopin.EntryContentsSound | chopin/chopin.py:32-42 | each recording of a built composition is the fresh content of a record sharing its title |
| Chopin.EntryContentsComplete | chopin/chopin.py:32-42 | each record sharing a composition's title yields one of its recordings, fresh and not downloaded |
| Chopin.PickPlayable | chopin/chopin.py:47-50 | `get`'s loop stops on a position holding a composition with recordings |
| Chopin.Get | chopin/chopin.py:44-50 | on an empty catalogue `get` raises the `IndexError` of `random.choice`; otherwise it returns a composition of the catalogue that has recordings |
| Chopin.Url | chopin/chopin.py:59-63 | `url` raises the `IndexError` of `get` on an empty catalogue; otherwise it returns `https://youtu.be/` + the id of some recording of some composition |
| Chopin.Download | chopin/chopin.py:52-57 | fails with the `IndexError` of `get` on an empty catalogue, otherwise only when the extractor fails, never with file-already-exists because of `force`; on success only the chosen recording changes, titles and hashes stay, and the file set grows as for `Content.download` |

## Left out

- The MD5 algorithm and `.encode()`: the digest is the parameter `digest`.
- Reading `data/compositions.json` and `data/contents.json` and resolving the package directory (chopin/chopin.py:23-28): the model starts from parsed records.
- The YoutubeDL call, its other options and the ffmpeg post-processing: a boolean says whether extraction succeeds, and a failed extraction is taken to leave no file behind.
- Contents.Download: when the output template sends the file elsewhere (`.mp3` earlier in the path), the path it lands at depends on the stream's own extension, which is not modelled; the model records no new file in that case.
- Contents.SavesAt: other `%` sequences in a path, which the extractor's template language would interpret, are taken literally.
- `os.path.exists` and `os.remove`: replaced by the explicit set of existing paths.
- The probabilities of `random.choice`: only the possible outcomes are modelled.
- `get`, `url` and `download` on a non-empty catalogue in which no composition has recordings loop forever in the source; the model requires that the catalogue be empty or hold a playable composition.
- `TypeError`s from `Composition(**kwargs)` or `Content(**ydl)` with unexpected keys: records are typed, so they cannot arise. This includes `Composition(**c.__dict__())` directly: its `youtube_dls` holds `Content` objects, which `Content(**ydl)` (chopin/compositions.py:38) rejects; `Compositions.DictRoundTrip` passes them back through `Content.__dict__` first.
- Default arguments (`sub_opus=None`, `no=None`, `youtube_dls=[]`, `md5=""`, `ext="mp3"`, `path=None`, `force=False`): every argument is passed explicitly.
- The exception class hierarchy (`ChopinException`) and the package re-exports: only the error kinds are modelled.
- Object identity and aliasing (`get` returns the stored object, `artists` lists are shared): values are immutable here and updates are returned.

=== FILE: chopin.dfy ===
/** The catalogue (`Chopin`): joining composition records with recording
    records by title, and the random choices made by `get`, `url` and
    `download`. Reading the two JSON files is left to the caller, who hands
    over the parsed records. */
module Chopin {
  import opened Errors
  import Contents
  import Compositions

  /** One entry of `compositions.json`. */
  datatype CompositionRecord = CompositionRecord(
    title: string,
    opus: Compositions.Opus,
    subOpus: Option<int>,
    no: Option<int>,
    md5: string)

  /** One entry of `contents.json`: a recording and the title it belongs to. */
  datatype ContentRecord = ContentRecord(title: string, id: string, artists: seq<string>)

  /** The part of a recording record a composition keeps: `{id, artists}`. */
  function Project(rec: ContentRecord): Contents.ContentDict {
    Contents.ContentDict(rec.id, rec.artists)
  }

  /** Reference definition of the join: the projections of the recording
      records titled `title`, in their order. It is never longer than the
      record list, and it is empty exactly when no record has the title. */
  function Matching(title: string, conts: seq<ContentRecord>): (r: seq<Contents.ContentDict>)
    ensures |r| <= |conts|
    ensures r == [] <==> forall k :: 0 <= k < |conts| ==> conts[k].title != title
    decreases |conts|
  {
    if conts == [] then []
    else
      var front := conts[..|conts| - 1];
      var last := conts[|conts| - 1];
      assert forall k :: 0 <= k < |front| ==> front[k] == conts[k];
      Matching(title, front) + (if last.title == title then [Project(last)] else [])
  }

  /** The join keeps the order of the recording list: it distributes over
      concatenation. */
  lemma {:induction false} MatchingAppend(title: string, a: seq<ContentRecord>, b: seq<ContentRecord>)
    ensures Matching(title, a + b) == Matching(title, a) + Matching(title, b)
    decreases |b|
  {
    if b == [] {
      assert a + b == a;
    } else {
      var b' := b[..|b| - 1];
      assert (a + b)[..|a + b| - 1] == a + b';
      MatchingAppend(title, a, b');
    }
  }

  /** Every joined recording comes from a record with the same title. */
  lemma {:induction false} MatchingSound(title: string, conts: seq<ContentRecord>, x: Contents.ContentDict)
    requires x in Matching(title, conts)
    ensures exists k :: 0 <= k < |conts| && conts[k].title == title && x == Project(conts[k])
    decreases |conts|
  {
    var front := conts[..|conts| - 1];
    if x in Matching(title, front) {
      MatchingSound(title, front, x);
      var k :| 0 <= k < |front| && front[k].title == title && x == Project(front[k]);
      assert conts[k] == front[k];
    } else {
      assert conts[|conts| - 1].title == title && x == Project(conts[|conts| - 1]);
    }
  }

  /** Every record with the title is joined. */
  lemma {:induction false} MatchingComplete(title: string, conts: seq<ContentRecord>, k: int)
    requires 0 <= k < |conts| && conts[k].title == title
    ensures Project(conts[k]) in Matching(title, conts)
  {
    assert conts == conts[..k] + [conts[k]] + conts[k + 1..];
    MatchingAppend(title, conts[..k] + [conts[k]], conts[k + 1..]);
    MatchingAppend(title, conts[..k], [conts[k]]);
    assert [conts[k]][..0] == [];
  }

  /** A record whose title differs from `title` has no influence: dropping
      it leaves the join unchanged. */
  lemma {:induction false} MatchingIgnoresOtherTitles(title: string, conts: seq<ContentRecord>, k: int)
    requires 0 <= k < |conts| && conts[k].title != title
    ensures Matching(title, conts) == Matching(title, conts[..k] + conts[k + 1..])
  {
    var a, x, b := conts[..k], [conts[k]], conts[k + 1..];
    assert Matching(title, x) == [] by {
      assert forall i :: 0 <= i < |x| ==> x[i].title != title;
    }
    calc {
      Matching(title, conts);
      { assert conts == (a + x) + b; }
      Matching(title, (a + x) + b);
      { MatchingAppend(title, a + x, b); }
      Matching(title, a + x) + Matching(title, b);
      { MatchingAppend(title, a, x); }
      (Matching(title, a) + []) + Matching(title, b);
      { assert Matching(title, a) + [] == Matching(title, a); }
      Matching(title, a) + Matching(title, b);
      { MatchingAppend(title, a, b); }
      Matching(title, a + b);
    }
  }

  /** `Composition(**comp, youtube_dls=...)` for one composition record. */
  function Entry(digest: string -> string, rec: CompositionRecord, ydls: seq<Contents.ContentDict>): Result<Compositions.Composition> {
    Compositions.NewComposition(digest, rec.title, rec.opus, rec.subOpus, rec.no, ydls, rec.md5)
  }

  /** The inner loop of `Chopin.__init__`: scans the recording records and
      keeps `{id, artists}` of those titled `title`. */
  method CollectContents(title: string, conts: seq<ContentRecord>) returns (ydls: seq<Contents.ContentDict>)
    ensures ydls == Matching(title, conts)
  {
    ydls := [];
    var k := 0;
    while k < |conts|
      invariant 0 <= k <= |conts|
      invariant ydls == Matching(title, conts[..k])
    {
      assert conts[..k + 1][..k] == conts[..k];
      if conts[k].title == title {
        ydls := ydls + [Project(conts[k])];
      }
      k := k + 1;
    }
    assert conts[..|conts|] == conts;
  }

  /** `Chopin.__init__` on already parsed records: one composition per
      composition record, in order, each holding the recordings joined by
      title; the first record whose hash does not match aborts the whole
      build with `InvalidHashValue`. */
  method Build(digest: string -> string, comps: seq<CompositionRecord>, conts: seq<ContentRecord>)
    returns (r: Result<seq<Compositions.Composition>>)
    ensures r.Ok? <==> forall i :: 0 <= i < |comps| ==> comps[i].md5 == digest(comps[i].title)
    ensures r.Err? ==> r.error == InvalidHashValue
    ensures r.Ok? ==> |r.value| == |comps|
    ensures r.Ok? ==> forall i :: 0 <= i < |comps| ==>
      Entry(digest, comps[i], Matching(comps[i].title, conts)) == Ok(r.value[i])
    ensures r.Ok? ==> forall i :: 0 <= i < |comps| ==> Compositions.HashMatches(digest, r.value[i])
  {
    var data: seq<Compositions.Composition> := [];
    var i := 0;
    while i < |comps|
      invariant 0 <= i <= |comps|
      invariant |data| == i
      invariant forall k :: 0 <= k < i ==> comps[k].md5 == digest(comps[k].title)
      invariant forall k :: 0 <= k < i ==>
        Entry(digest, comps[k], Matching(comps[k].title, conts)) == Ok(data[k])
    {
      var ydls := CollectContents(comps[i].title, conts);
      var entry := Entry(digest, comps[i], ydls);
      if entry.Err? {
        return Err(entry.error);
      }
      data := data + [entry.value];
      i := i + 1;
    }
    return Ok(data);
  }

  /** A dictionary handed to `Entry` comes back as a fresh content. */
  lemma {:induction false} EntryKeepsDicts(digest: string -> string, rec: CompositionRecord, ydls: seq<Contents.ContentDict>,
                        c: Compositions.Composition, d: Contents.ContentDict)
    requires Entry(digest, rec, ydls) == Ok(c)
    requires d in ydls
    ensures Contents.FromDict(d) in c.youtubeDls
  {
    var j :| 0 <= j < |ydls| && ydls[j] == d;
    assert c.youtubeDls[j] == Contents.FromDict(d);
  }

  /** Each recording of a built composition is the fresh content of a
      recording record sharing its title. */
  lemma {:induction false} EntryContentsSound(digest: string -> string, rec: CompositionRecord, conts: seq<ContentRecord>,
                           ydls: seq<Contents.ContentDict>, c: Compositions.Composition, j: int)
    requires ydls == Matching(rec.title, conts)
    requires Entry(digest, rec, ydls) == Ok(c)
    requires 0 <= j < |c.youtubeDls|
    ensures exists k :: (0 <= k < |conts| && conts[k].title == rec.title
      && c.youtubeDls[j] == Contents.FromDict(Project(conts[k])))
  {
    assert ydls[j] in ydls;
    MatchingSound(rec.title, conts, ydls[j]);
  }

  /** Every recording record sharing a composition's title yields one of its
      recordings, fresh and not downloaded. */
  lemma {:induction false} EntryContentsComplete(digest: string -> string, rec: CompositionRecord, conts: seq<ContentRecord>,
                              ydls: seq<Contents.ContentDict>, c: Compositions.Composition, k: int)
    requires ydls == Matching(rec.title, conts)
    requires Entry(digest, rec, ydls) == Ok(c)
    requires 0 <= k < |conts| && conts[k].title == rec.title
    ensures Contents.FromDict(Project(conts[k])) in c.youtubeDls
  {
    MatchingComplete(rec.title, conts, k);
    EntryKeepsDicts(digest, rec, ydls, c, Project(conts[k]));
  }

  /** A composition `get` may return: one with at least one recording. */
  predicate Playable(c: Compositions.Composition) {
    c.youtubeDls != []
  }

  /** `get` terminates only when some composition is playable; otherwise its
      loop draws forever. */
  predicate HasPlayable(data: seq<Compositions.Composition>) {
    exists i :: 0 <= i < |data| && Playable(data[i])
  }

  /** The catalogues on which `get` returns or raises rather than looping
      forever: an empty one (the first draw raises) or one with a playable
      composition. */
  predicate GetTerminates(data: seq<Compositions.Composition>) {
    data == [] || HasPlayable(data)
  }

  /** The position `random.choice` settles on in `get`'s loop: any playable
      one may come out, and only those. */
  method PickPlayable(data: seq<Compositions.Composition>) returns (i: nat)
    requires HasPlayable(data)
    ensures i < |data| && Playable(data[i])
  {
    i :| i < |data| && Playable(data[i]);
  }

  /** `Chopin.get()`: `random.choice` on an empty catalogue raises an
      `IndexError`; otherwise the result is a composition of the catalogue
      that has recordings. */
  method Get(data: seq<Compositions.Composition>) returns (r: Result<Compositions.Composition>)
    requires GetTerminates(data)
    ensures r.Err? <==> data == []
    ensures r.Err? ==> r.error == EmptyChoice
    ensures r.Ok? ==> r.value in data && Playable(r.value)
  {
    if data == [] {
      return Err(EmptyChoice);
    }
    var i := PickPlayable(data);
    r := Ok(data[i]);
  }

  /** `Chopin.url()`: the link of some recording of some playable
      composition, or the `IndexError` of `get` on an empty catalogue. */
  method Url(data: seq<Compositions.Composition>) returns (r: Result<string>)
    requires GetTerminates(data)
    ensures r.Err? <==> data == []
    ensures r.Err? ==> r.error == EmptyChoice
    ensures r.Ok? ==> exists i, j :: (0 <= i < |data| && 0 <= j < |data[i].youtubeDls|
                                      && r.value == Contents.UrlPrefix + data[i].youtubeDls[j].id)
  {
    var c := Get(data);
    if c.Err? {
      return Err(c.error);
    }
    var i :| 0 <= i < |data| && data[i] == c.value;
    var j :| 0 <= j < |data[i].youtubeDls|;
    r := Ok(data[i].youtubeDls[j].Url());
  }

  /** The catalogue after recording `j` of composition `i` changed state. */
  function UpdateContent(data: seq<Compositions.Composition>, i: int, j: int, c: Contents.Content): (r: seq<Compositions.Composition>)
    requires 0 <= i < |data| && 0 <= j < |data[i].youtubeDls|
    ensures |r| == |data|
    ensures forall k :: 0 <= k < |data| && k != i ==> r[k] == data[k]
    ensures r[i] == data[i].(youtubeDls := data[i].youtubeDls[j := c])
    ensures r[i].youtubeDls[j] == c
  {
    data[i := data[i].(youtubeDls := data[i].youtubeDls[j := c])]
  }

  /** What `Chopin.download` leaves behind: the recording it downloaded, the
      catalogue holding that recording, and the files that exist. */
  datatype Downloaded = Downloaded(content: Contents.Content, data: seq<Compositions.Composition>, files: set<string>)

  /** `Chopin.download(path)`: a random recording of a random playable
      composition is downloaded with `force=True`, so an existing file is
      overwritten and the extractor is the only possible failure besides the
      `IndexError` of `get` on an empty catalogue. */
  method Download(data: seq<Compositions.Composition>, files: set<string>, path: Option<string>, extractorOk: bool)
    returns (r: Result<Downloaded>)
    requires GetTerminates(data)
    ensures r.Err? <==> data == [] || !extractorOk
    ensures r.Err? && data == [] ==> r.error == EmptyChoice
    ensures r.Err? && data != [] ==> r.error == Errors.DownloadFails(ExtractorFailed)
    ensures r.Ok? ==> exists i, j :: (
      && 0 <= i < |data| && 0 <= j < |data[i].youtubeDls|
      && r.value.content == data[i].youtubeDls[j].(path := Contents.EffectivePath(data[i].youtubeDls[j], path), downloaded := true)
      && r.value.data == UpdateContent(data, i, j, r.value.content))
    ensures r.Ok? ==> r.value.content.downloaded
    ensures r.Ok? ==> r.value.files == files + (if Contents.SavesAt(r.value.content.path) then {r.value.content.path} else {})
    ensures r.Ok? ==> |r.value.data| == |data|
    ensures r.Ok? ==> forall k :: 0 <= k < |data| ==>
      r.value.data[k].title == data[k].title && r.value.data[k].md5 == data[k].md5
  {
    if data == [] {
      return Err(EmptyChoice);
    }
    var i := PickPlayable(data);
    var j :| 0 <= j < |data[i].youtubeDls|;
    var s := Contents.State(data[i].youtubeDls[j], files);
    var step := Contents.Download(s, path, true, extractorOk);
    if step.Err? {
      return Err(step.error);
    }
    var content := step.value.content;
    r := Ok(Downloaded(content, UpdateContent(data, i, j, content), step.value.files));
  }
}

=== FILE: compositions.dfy ===
/** A Chopin composition (`Composition`): its catalogue numbers, its
    recordings, the title-hash integrity gate, its display string and the
    file name derived from it. */
module Compositions {
  import opened Errors
  import opened Strings
  import opened Decimal
  import Contents

  /** An opus number: normally an integer, a string for posthumous works or
      opus numbers with letters. */
  datatype Opus = IntOpus(n: int) | StrOpus(s: string)

  /** `f"{opus}"`. */
  function OpusText(opus: Opus): string {
    match opus
    case IntOpus(n) => IntToDecimal(n)
    case StrOpus(s) => s
  }

  datatype Composition = Composition(
    title: string,
    opus: Opus,
    subOpus: Option<int>,
    no: Option<int>,
    youtubeDls: seq<Contents.Content>,
    md5: string)

  /** `Composition.__dict__()`: the constructor's fields, with the recordings
      as `Content` values rather than dictionaries. */
  datatype CompositionDict = CompositionDict(
    title: string,
    opus: Opus,
    subOpus: Option<int>,
    no: Option<int>,
    youtubeDls: seq<Contents.Content>,
    md5: string)

  /** The integrity invariant: the stored hash is the digest of the title.
      `digest` stands for the MD5 hex digest of the UTF-8 encoded title. */
  predicate HashMatches(digest: string -> string, c: Composition) {
    c.md5 == digest(c.title)
  }

  /** `Composition(title, opus, sub_opus, no, youtube_dls, md5)`: one fresh
      `Content` per dictionary, in order, and `InvalidHashValue` when `md5`
      is not the digest of the title. */
  function NewComposition(
    digest: string -> string,
    title: string,
    opus: Opus,
    subOpus: Option<int>,
    no: Option<int>,
    youtubeDls: seq<Contents.ContentDict>,
    md5: string): (r: Result<Composition>)
    ensures r.Ok? <==> md5 == digest(title)
    ensures r.Err? ==> r.error == InvalidHashValue
    ensures r.Ok? ==> HashMatches(digest, r.value)
    ensures r.Ok? ==>
      && r.value.title == title && r.value.opus == opus && r.value.subOpus == subOpus
      && r.value.no == no && r.value.md5 == md5
    ensures r.Ok? ==> |r.value.youtubeDls| == |youtubeDls|
    ensures r.Ok? ==> forall i :: 0 <= i < |youtubeDls| ==>
      && r.value.youtubeDls[i].id == youtubeDls[i].id
      && r.value.youtubeDls[i].artists == youtubeDls[i].artists
      && !r.value.youtubeDls[i].downloaded
      && r.value.youtubeDls[i].path == Contents.DefaultPath(youtubeDls[i].id)
  {
    var contents := seq(|youtubeDls|, i requires 0 <= i < |youtubeDls| => Contents.FromDict(youtubeDls[i]));
    if md5 != digest(title) then Err(InvalidHashValue)
    else Ok(Composition(title, opus, subOpus, no, contents, md5))
  }

  function ToDict(c: Composition): CompositionDict {
    CompositionDict(c.title, c.opus, c.subOpus, c.no, c.youtubeDls, c.md5)
  }

  /** The recordings of a dictionary turned back into constructor arguments. */
  function ContentDicts(contents: seq<Contents.Content>): (r: seq<Contents.ContentDict>)
    ensures |r| == |contents|
    ensures forall i :: 0 <= i < |contents| ==> r[i] == Contents.ToDict(contents[i])
  {
    seq(|contents|, i requires 0 <= i < |contents| => Contents.ToDict(contents[i]))
  }

  /** A composition whose recordings are all fresh is rebuilt exactly from
      its dictionary, once the recordings are mapped back to dictionaries. */
  lemma DictRoundTrip(digest: string -> string, c: Composition)
    requires HashMatches(digest, c)
    requires forall i :: 0 <= i < |c.youtubeDls| ==>
      c.youtubeDls[i] == Contents.NewContent(c.youtubeDls[i].id, c.youtubeDls[i].artists)
    ensures var d := ToDict(c);
      NewComposition(digest, d.title, d.opus, d.subOpus, d.no, ContentDicts(d.youtubeDls), d.md5) == Ok(c)
  {
    var d := ToDict(c);
    var r := NewComposition(digest, d.title, d.opus, d.subOpus, d.no, ContentDicts(d.youtubeDls), d.md5);
    assert r.Ok?;
    assert r.value.youtubeDls == c.youtubeDls;
  }

  function SubOpusText(subOpus: Option<int>): string {
    match subOpus
    case None => ""
    case Some(k) => "-" + IntToDecimal(k)
  }

  function NoText(no: Option<int>): string {
    match no
    case None => ""
    case Some(k) => " No." + IntToDecimal(k)
  }

  /** `str(composition)`: `"{title} Op.{opus}"`, then `"-{sub_opus}"` and
      `" No.{no}"` when those are present. */
  function ToString(c: Composition): (r: string)
    ensures StartsWith(r, c.title + " Op.")
    ensures c.opus.IntOpus? ==>
      ReadNumbering(r[|c.title| + 4..]) == Some((c.opus.n, c.subOpus, c.no))
  {
    var r := c.title + " Op." + OpusText(c.opus) + SubOpusText(c.subOpus) + NoText(c.no);
    NumberingFollowsHead(c.title + " Op.", OpusText(c.opus), SubOpusText(c.subOpus), NoText(c.no));
    assert c.opus.IntOpus? ==> ReadNumbering(NumberingText(c)) == Some((c.opus.n, c.subOpus, c.no)) by {
      if c.opus.IntOpus? {
        NumberingRoundTrip(c.opus.n, c.subOpus, c.no);
      }
    }
    r
  }

  /** For every kind of opus, the display string is the title, ` Op.` and
      the opus as written, followed by text that reads back to exactly the
      sub-opus and the number; the readers accept only the text `str`
      writes (`ReadSubOpusExact`, `ReadNoExact`). */
  lemma ToStringParts(c: Composition)
    ensures StartsWith(ToString(c), c.title + " Op." + OpusText(c.opus))
    ensures var tail := ToString(c)[|c.title| + 4 + |OpusText(c.opus)|..];
      && ReadSubOpus(tail).Some? && ReadSubOpus(tail).value.0 == c.subOpus
      && ReadNo(ReadSubOpus(tail).value.1) == Some(c.no)
  {
    var head := c.title + " Op." + OpusText(c.opus);
    var sub, no := SubOpusText(c.subOpus), NoText(c.no);
    AppendAssoc(head, sub, no);
    HeadAndTail(head, sub + no);
    ReadNoRoundTrip(c.no);
    ReadSubOpusRoundTrip(c.subOpus, no);
  }

  /** The tail of `head + tail` after `head`. */
  lemma HeadAndTail(head: string, tail: string)
    ensures StartsWith(head + tail, head) && (head + tail)[|head|..] == tail
  {
    assert (head + tail)[..|head|] == head;
  }

  /** Reads `"[-{sub_opus}]"` back from the start of `s`, with what follows. */
  function ReadSubOpus(s: string): Option<(Option<int>, string)> {
    if |s| > 0 && s[0] == '-' then
      match ReadInt(s[1..])
      case None => None
      case Some((v, k)) => Some((Some(v), s[1..][k..]))
    else Some((None, s))
  }

  /** Reads `"[ No.{no}]"` back; it must be all of `s`. */
  function ReadNo(s: string): Option<Option<int>> {
    if s == [] then Some(None)
    else if StartsWith(s, " No.") then
      match ReadInt(s[4..])
      case None => None
      case Some((v, k)) => if k == |s| - 4 then Some(Some(v)) else None
    else None
  }

  /** Reads the numbering that follows `" Op."` for an integer opus. */
  function ReadNumbering(s: string): Option<(int, Option<int>, Option<int>)> {
    match ReadInt(s)
    case None => None
    case Some((opus, k)) =>
      match ReadSubOpus(s[k..])
      case None => None
      case Some((subOpus, rest)) =>
        match ReadNo(rest)
        case None => None
        case Some(no) => Some((opus, subOpus, no))
  }

  lemma ReadNoRoundTrip(no: Option<int>)
    ensures ReadNo(NoText(no)) == Some(no)
    ensures NoText(no) == [] || NoText(no)[0] == ' '
  {
    if no.Some? {
      var n := NoText(no);
      var digits := IntToDecimal(no.value);
      ReadIntRoundTrip(no.value, "");
      assert digits + "" == digits;
      assert n[4..] == digits;
      assert StartsWith(n, " No.");
    }
  }

  lemma ReadSubOpusRoundTrip(subOpus: Option<int>, rest: string)
    requires rest == [] || rest[0] == ' '
    ensures ReadSubOpus(SubOpusText(subOpus) + rest) == Some((subOpus, rest))
    ensures var t := SubOpusText(subOpus) + rest; t == [] || !IsDigit(t[0])
  {
    if subOpus.Some? {
      ReadDashedRoundTrip(subOpus.value, rest);
    } else {
      assert SubOpusText(subOpus) + rest == rest;
    }
  }

  /** A dash and a written integer read back to that integer. */
  lemma ReadDashedRoundTrip(v: int, rest: string)
    requires rest == [] || rest[0] == ' '
    ensures ReadSubOpus(SubOpusText(Some(v)) + rest) == Some((Some(v), rest))
    ensures (SubOpusText(Some(v)) + rest)[0] == '-'
  {
    var digits := IntToDecimal(v);
    ReadIntRoundTrip(v, rest);
    assert SubOpusText(Some(v)) + rest == "-" + (digits + rest);
    ReadSubOpusStep(digits + rest, v, |digits|);
    assert (digits + rest)[|digits|..] == rest;
  }

  /** `ReadSubOpus` on a dash reads the integer after it. */
  lemma ReadSubOpusStep(t: string, v: int, k: nat)
    requires ReadInt(t) == Some((v, k))
    ensures ReadSubOpus("-" + t) == Some((Some(v), t[k..]))
  {
    assert ("-" + t)[1..] == t;
  }

  /** The numbering text of an integer opus reads back to its parts. */
  lemma {:induction false} NumberingRoundTrip(opus: int, subOpus: Option<int>, no: Option<int>)
    ensures ReadNumbering(IntToDecimal(opus) + (SubOpusText(subOpus) + NoText(no)))
         == Some((opus, subOpus, no))
  {
    var o, n := IntToDecimal(opus), NoText(no);
    var t := SubOpusText(subOpus) + n;
    ReadNoRoundTrip(no);
    ReadSubOpusRoundTrip(subOpus, n);
    ReadIntRoundTrip(opus, t);
    assert (o + t)[|o|..] == t;
    ReadNumberingSteps(o + t, opus, |o|, subOpus, n, no);
  }

  /** `ReadNumbering` chains its three readers. */
  lemma ReadNumberingSteps(s: string, opus: int, k: nat, subOpus: Option<int>, rest: string, no: Option<int>)
    requires ReadInt(s) == Some((opus, k))
    requires ReadSubOpus(s[k..]) == Some((subOpus, rest))
    requires ReadNo(rest) == Some(no)
    ensures ReadNumbering(s) == Some((opus, subOpus, no))
  {
  }

  /** `ReadNo` accepts only the text `NoText` writes. */
  lemma ReadNoExact(s: string, no: Option<int>)
    requires ReadNo(s) == Some(no)
    ensures s == NoText(no)
  {
    if s != [] {
      var k := |s| - 4;
      ReadIntExact(s[4..], no.value, k);
      assert s[4..][..k] == s[4..];
      assert s == " No." + s[4..];
    }
  }

  /** `ReadSubOpus` accepts only the text `SubOpusText` writes, followed by
      what it returns. */
  lemma ReadSubOpusExact(s: string, subOpus: Option<int>, rest: string)
    requires ReadSubOpus(s) == Some((subOpus, rest))
    ensures s == SubOpusText(subOpus) + rest
  {
    if |s| > 0 && s[0] == '-' {
      var t := s[1..];
      var r := ReadInt(t);
      var k := r.value.1;
      assert r == Some((subOpus.value, k)) && rest == t[k..];
      ReadIntExact(t, subOpus.value, k);
      DashedText(t, subOpus.value, k);
      assert s == "-" + t;
    }
  }

  /** A dash, the text of `v` and what follows it. */
  lemma DashedText(t: string, v: int, k: nat)
    requires k <= |t| && t[..k] == IntToDecimal(v)
    ensures "-" + t == SubOpusText(Some(v)) + t[k..]
  {
    SplitAt(t, k);
    AppendAssoc("-", t[..k], t[k..]);
  }

  /** `ReadNumbering` accepts only the numbering text of what it returns,
      so it is the exact inverse of writing the numbering. */
  lemma ReadNumberingExact(s: string, opus: int, subOpus: Option<int>, no: Option<int>)
    requires ReadNumbering(s) == Some((opus, subOpus, no))
    ensures s == IntToDecimal(opus) + (SubOpusText(subOpus) + NoText(no))
  {
    var r1 := ReadInt(s);
    var k := r1.value.1;
    var r2 := ReadSubOpus(s[k..]);
    var rest := r2.value.1;
    assert r1 == Some((opus, k)) && r2 == Some((subOpus, rest)) && ReadNo(rest) == Some(no);
    ReadIntExact(s, opus, k);
    ReadSubOpusExact(s[k..], subOpus, rest);
    ReadNoExact(rest, no);
    SplitAt(s, k);
  }

  /** A text is its prefix of length `k` followed by the rest. */
  lemma SplitAt(s: string, k: nat)
    requires k <= |s|
    ensures s == s[..k] + s[k..]
  {
  }

  /** For a fixed title and integer opus numbers, the display string
      determines the opus, sub-opus and number. */
  lemma ToStringInjective(c: Composition, d: Composition)
    requires c.title == d.title && c.opus.IntOpus? && d.opus.IntOpus?
    requires ToString(c) == ToString(d)
    ensures c.opus == d.opus && c.subOpus == d.subOpus && c.no == d.no
  {
    var rc, rd := ToString(c), ToString(d);
    assert rc[|c.title| + 4..] == rd[|d.title| + 4..];
  }

  /** The text after the head of the display string. */
  lemma NumberingFollowsHead(head: string, o: string, sub: string, no: string)
    ensures var r := head + o + sub + no;
      StartsWith(r, head) && r[|head|..] == o + (sub + no)
  {
    var r := head + o + sub + no;
    assert r == head + (o + (sub + no));
  }

  function NumberingText(c: Composition): string {
    OpusText(c.opus) + (SubOpusText(c.subOpus) + NoText(c.no))
  }

  /** The extension with a leading dot added unless it has one. */
  function DotExt(ext: string): (r: string)
    ensures StartsWith(r, ".")
    ensures StartsWith(ext, ".") ==> r == ext
    ensures !StartsWith(ext, ".") ==> r == "." + ext
  {
    if StartsWith(ext, ".") then ext else "." + ext
  }

  lemma DotExtIdempotent(ext: string)
    ensures DotExt(DotExt(ext)) == DotExt(ext)
  {
  }

  /** The rewriting `filename` applies: spaces become `_`, then every `Op.`
      and then every `No.` is deleted. The deletions cannot bring a space
      back, and no character other than `_` is introduced. */
  function Sanitize(s: string): (r: string)
    ensures ' ' !in r
    ensures forall ch :: ch in r ==> ch in s || ch == '_'
    ensures 'O' !in s && 'N' !in s ==>
      |r| == |s| && forall k :: 0 <= k < |s| ==> r[k] == (if s[k] == ' ' then '_' else s[k])
    ensures ' ' !in s && 'O' !in s && 'N' !in s ==> r == s
  {
    var s1 := Replace(s, " ", "_");
    var s2 := Replace(s1, "Op.", "");
    var r := Replace(s2, "No.", "");
    ReplaceOneCharRemoves(s, ' ', '_');
    DeleteKeepsAbsent(s1, "Op.", ' ');
    DeleteKeepsAbsent(s2, "No.", ' ');
    forall ch | ch in r
      ensures ch in s || ch == '_'
    {
      ReplaceChars(s2, "No.", "", ch);
      ReplaceChars(s1, "Op.", "", ch);
      ReplaceChars(s, " ", "_", ch);
    }
    assert 'O' !in s && 'N' !in s ==> s2 == s1 && r == s1 by {
      if 'O' !in s && 'N' !in s {
        if 'O' in s1 { ReplaceChars(s, " ", "_", 'O'); }
        if 'N' in s1 { ReplaceChars(s, " ", "_", 'N'); }
        ReplaceAbsent(s1, "Op.", "");
        ReplaceAbsent(s2, "No.", "");
      }
    }
    ReplaceOneChar(s, ' ', '_');
    assert ' ' !in s && 'O' !in s && 'N' !in s ==> s1 == s by {
      if ' ' !in s { ReplaceAbsent(s, " ", "_"); }
    }
    r
  }

  /** `composition.filename(index, ext)`: the recording at `index` modulo
      the number of recordings (a `ZeroDivisionError` when there are none),
      the display string, a space, the recording's artist tag and the
      dotted extension, sanitised. The name never contains a space. */
  function Filename(c: Composition, index: int, ext: string): (r: Result<string>)
    ensures r.Err? <==> c.youtubeDls == []
    ensures r.Err? ==> r.error == DivByZero
    ensures r.Ok? ==> ' ' !in r.value
  {
    if |c.youtubeDls| == 0 then Err(DivByZero)
    else
      var ydl := c.youtubeDls[index % |c.youtubeDls|];
      var name := Sanitize(ToString(c) + " " + Contents.ToString(ydl) + DotExt(ext));
      Ok(name)
  }

  /** Any integer index, negative or past the end, names the same file as
      its remainder modulo the number of recordings, which is a valid
      position. Python's `%` with a positive divisor is the floored
      remainder, which for a positive divisor is Dafny's `%`. */
  lemma FilenameWrapsAround(c: Composition, index: int, ext: string)
    requires c.youtubeDls != []
    ensures 0 <= index % |c.youtubeDls| < |c.youtubeDls|
    ensures Filename(c, index, ext) == Filename(c, index % |c.youtubeDls|, ext)
  {
    var n := |c.youtubeDls|;
    assert (index % n) % n == index % n;
  }

  /** Adding the dot to the extension beforehand changes nothing. */
  lemma FilenameDotInsensitive(c: Composition, index: int, ext: string)
    ensures Filename(c, index, ext) == Filename(c, index, DotExt(ext))
  {
    DotExtIdempotent(ext);
  }

  /** `filename(i, "mp3") == filename(i, ".mp3")`. */
  lemma FilenameMp3Dotted(c: Composition, index: int)
    ensures Filename(c, index, "mp3") == Filename(c, index, ".mp3")
  {
    FilenameDotInsensitive(c, index, "mp3");
    assert "mp3"[..1][0] == 'm';
    assert DotExt("mp3") == ".mp3";
  }

  /** The sanitising passes work separately on the text before and after an
      `&`, which none of their patterns contains. */
  lemma SanitizeSplitsAtAmpersand(a: string, e: string)
    ensures Sanitize(a + ("&" + e)) == Sanitize(a) + ("&" + Sanitize(e))
  {
    var a1, e1 := Replace(a, " ", "_"), Replace(e, " ", "_");
    ReplaceSplits(a, "&" + e, " ", "_");
    ReplaceSkipsForeign('&', e, " ", "_");
    assert [('&')] + e == "&" + e;
    var a2, e2 := Replace(a1, "Op.", ""), Replace(e1, "Op.", "");
    ReplaceSplits(a1, "&" + e1, "Op.", "");
    ReplaceSkipsForeign('&', e1, "Op.", "");
    ReplaceSplits(a2, "&" + e2, "No.", "");
    ReplaceSkipsForeign('&', e2, "No.", "");
  }

  /** The sanitising passes work separately on the text before and after a
      space: the space itself becomes `_`, which none of the deleted
      patterns contains. */
  lemma SanitizeSplitsAtSpace(a: string, b: string)
    ensures Sanitize(a + (" " + b)) == Sanitize(a) + ("_" + Sanitize(b))
  {
    var a1, b1 := Replace(a, " ", "_"), Replace(b, " ", "_");
    ReplaceOneCharAppend(a, " " + b, ' ', '_');
    ReplaceOneCharAppend(" ", b, ' ', '_');
    assert Replace(" ", " ", "_") == "_" by {
      assert " "[..1] == " ";
      assert Replace(" "[1..], " ", "_") == [];
    }
    assert Replace(a + (" " + b), " ", "_") == a1 + ("_" + b1);
    var a2, b2 := Replace(a1, "Op.", ""), Replace(b1, "Op.", "");
    ReplaceSplits(a1, "_" + b1, "Op.", "");
    ReplaceSkipsForeign('_', b1, "Op.", "");
    assert ['_'] + b1 == "_" + b1;
    ReplaceSplits(a2, "_" + b2, "No.", "");
    ReplaceSkipsForeign('_', b2, "No.", "");
    assert ['_'] + b2 == "_" + b2;
  }

  /** A leading `Op.` is deleted by sanitising: spaces do not touch it, and
      the `Op.` pass matches it first. */
  lemma SanitizeDropsOp(b: string)
    ensures Sanitize("Op." + b) == Sanitize(b)
  {
    var b1 := Replace(b, " ", "_");
    ReplaceForeignPrefix("Op.", b, " ", "_");
    ReplaceHeadMatch("Op.", b1, "");
    assert "" + Replace(b1, "Op.", "") == Replace(b1, "Op.", "");
  }

  /** A leading `No.` is deleted by sanitising: neither the space pass nor
      the `Op.` pass touches it, and the `No.` pass matches it first. */
  lemma SanitizeDropsNo(b: string)
    ensures Sanitize("No." + b) == Sanitize(b)
  {
    var b1 := Replace(b, " ", "_");
    var b2 := Replace(b1, "Op.", "");
    ReplaceForeignPrefix("No.", b, " ", "_");
    ReplaceForeignPrefix("No.", b1, "Op.", "");
    ReplaceHeadMatch("No.", b2, "");
    assert "" + Replace(b2, "No.", "") == Replace(b2, "No.", "");
  }

  /** The `No.` part of a sanitised display string: `_` and the number. */
  function SanitizedNo(no: Option<int>): string {
    match no
    case None => ""
    case Some(k) => "_" + IntToDecimal(k)
  }

  /** How `filename` rewrites a display string: the title is sanitised,
      the space before `Op.` becomes `_`, `Op.` is deleted, and a number
      becomes `_` and its digits with `No.` deleted. For an integer opus,
      `"Nocturne Op.9 No.2"` becomes `"Nocturne_9_2"`: the opus and
      sub-opus are kept as written. */
  lemma SanitizeDisplayString(c: Composition)
    ensures Sanitize(ToString(c))
      == Sanitize(c.title) + "_" + Sanitize(OpusText(c.opus) + SubOpusText(c.subOpus)) + SanitizedNo(c.no)
    ensures c.opus.IntOpus? ==>
      (Sanitize(ToString(c))
       == Sanitize(c.title) + "_" + IntToDecimal(c.opus.n) + SubOpusText(c.subOpus) + SanitizedNo(c.no))
  {
    var o, sub := OpusText(c.opus), SubOpusText(c.subOpus);
    var rest := o + sub + NoText(c.no);
    var t, m, n := Sanitize(c.title), Sanitize(o + sub), SanitizedNo(c.no);
    SanitizeHead(c.title, rest);
    DisplayText(c);
    SanitizeNumbering(o + sub, c.no);
    AppendAssoc("_", m, n);
    AppendAssoc(t, "_" + m, n);
    AppendAssoc(t, "_", m);
    if c.opus.IntOpus? {
      SanitizeOpusNumbers(c.opus.n, c.subOpus);
      AppendAssoc(t + "_", o, sub);
    }
  }

  /** The display string, regrouped as the title, a space, `Op.` and the
      numbering. */
  lemma DisplayText(c: Composition)
    ensures ToString(c)
      == c.title + (" " + ("Op." + (OpusText(c.opus) + SubOpusText(c.subOpus) + NoText(c.no))))
  {
    var t, o, sub, no := c.title, OpusText(c.opus), SubOpusText(c.subOpus), NoText(c.no);
    var rest := o + sub + no;
    calc {
      ToString(c);
      t + " Op." + o + sub + no;
      { AppendAssoc(t + " Op.", o, sub); AppendAssoc(t + " Op.", o + sub, no); }
      (t + " Op.") + rest;
      { AppendAssoc(t, " Op.", rest); }
      t + (" Op." + rest);
      { assert " Op." == " " + "Op."; AppendAssoc(" ", "Op.", rest); }
      t + (" " + ("Op." + rest));
    }
  }

  /** `"Nocturne Op.9 No.2"` sanitises to `"Nocturne_9_2"`. */
  lemma SanitizeNocturne(c: Composition)
    requires c.title == "Nocturne" && c.opus == IntOpus(9) && c.subOpus.None? && c.no == Some(2)
    ensures Sanitize(ToString(c)) == "Nocturne_9_2"
  {
    var d9, d2 := IntToDecimal(9), IntToDecimal(2);
    calc {
      Sanitize(ToString(c));
      { SanitizeDisplayString(c); }
      Sanitize(c.title) + "_" + d9 + SubOpusText(c.subOpus) + SanitizedNo(c.no);
      { SanitizeNocturneTitle(); assert SubOpusText(c.subOpus) == []; }
      "Nocturne" + "_" + d9 + [] + ("_" + d2);
      { assert d9 == "9" && d2 == "2"; }
      "Nocturne_9_2";
    }
  }

  /** The `No` at the start of `Nocturne` is not followed by a dot, so
      sanitising leaves the title alone. */
  lemma SanitizeNocturneTitle()
    ensures Sanitize("Nocturne") == "Nocturne"
  {
    var t := "Nocturne";
    calc {
      Sanitize(t);
      Replace(Replace(Replace(t, " ", "_"), "Op.", ""), "No.", "");
      { ReplaceAbsent(t, " ", "_"); }
      Replace(Replace(t, "Op.", ""), "No.", "");
      { ReplaceAbsent(t, "Op.", ""); }
      Replace(t, "No.", "");
      { NocturneKeepsNo(); }
      t;
    }
  }

  /** The `No.` pass finds nothing in `Nocturne`. */
  lemma NocturneKeepsNo()
    ensures Replace("Nocturne", "No.", "") == "Nocturne"
  {
    var t := "Nocturne";
    assert t[..3][2] == 'c' && "No."[2] == '.';
    ReplaceCopiesHead(t, "No.", "");
    assert t[1..] == "octurne";
    ReplaceAbsent("octurne", "No.", "");
    assert [t[0]] + "octurne" == t;
  }


  /** The title, then ` Op.` and the rest: the space becomes `_` and `Op.`
      is deleted. */
  lemma SanitizeHead(title: string, rest: string)
    ensures Sanitize(title + (" " + ("Op." + rest))) == Sanitize(title) + ("_" + Sanitize(rest))
  {
    SanitizeSplitsAtSpace(title, "Op." + rest);
    SanitizeDropsOp(rest);
  }

  /** The numbering after `Op.`: a ` No.` part becomes `_` and the number. */
  lemma SanitizeNumbering(os: string, no: Option<int>)
    ensures Sanitize(os + NoText(no)) == Sanitize(os) + SanitizedNo(no)
  {
    if no.Some? {
      NumberPlain(no.value);
      NoTextParts(no.value);
      SanitizeNoPart(os, IntToDecimal(no.value));
    } else {
      assert os + NoText(no) == os;
    }
  }

  /** The text of a number has no space, `O` or `N`. */
  lemma NumberPlain(n: int)
    ensures var k := IntToDecimal(n); ' ' !in k && 'O' !in k && 'N' !in k
  {
  }

  /** The ` No.` part before and after sanitising. */
  lemma NoTextParts(n: int)
    ensures NoText(Some(n)) == " " + ("No." + IntToDecimal(n))
    ensures SanitizedNo(Some(n)) == "_" + IntToDecimal(n)
  {
  }

  /** A space, `No.` and a text sanitising cannot touch become `_` and
      that text. */
  lemma SanitizeNoPart(os: string, k: string)
    requires ' ' !in k && 'O' !in k && 'N' !in k
    ensures Sanitize(os + (" " + ("No." + k))) == Sanitize(os) + ("_" + k)
  {
    SanitizeSplitsAtSpace(os, "No." + k);
    SanitizeDropsNo(k);
  }

  /** An integer opus and its sub-opus are left alone by sanitising. */
  lemma SanitizeOpusNumbers(n: int, subOpus: Option<int>)
    ensures Sanitize(IntToDecimal(n) + SubOpusText(subOpus)) == IntToDecimal(n) + SubOpusText(subOpus)
  {
    var d, sub := IntToDecimal(n), SubOpusText(subOpus);
    assert 'O' !in d && 'N' !in d;
    if subOpus.Some? {
      var e := IntToDecimal(subOpus.value);
      assert 'O' !in e && 'N' !in e;
      assert d + sub == d + ("-" + e);
    } else {
      assert d + sub == d;
    }
    assert ' ' !in d + sub && 'O' !in d + sub && 'N' !in d + sub;
  }

  /** Sanitising the artist tag without its final `&` is sanitising the
      joined artists: the tag's spaces are already `_`. */
  lemma SanitizeTag(artists: seq<string>)
    ensures var tag := Contents.ToString(Contents.Content("", artists, "", false));
      Sanitize(tag[..|tag| - 1]) == Sanitize(Join(artists, "&"))
  {
    var j := Join(artists, "&");
    var tag := Contents.ToString(Contents.Content("", artists, "", false));
    var t := tag[..|tag| - 1];
    ReplaceOneChar(j, ' ', '_');
    assert t == Replace(j, " ", "_");
    ReplaceAbsent(t, " ", "_");
  }

  /** The file name is made of the display string, the chosen recording's
      artists joined by `&` and the dotted extension, each sanitised, with
      `_` for the space after the display string and `&` before the
      extension. */
  lemma FilenameParts(c: Composition, index: int, ext: string)
    requires c.youtubeDls != []
    ensures var ydl := c.youtubeDls[index % |c.youtubeDls|];
      Filename(c, index, ext) ==
        Ok(Sanitize(ToString(c)) + ("_" + (Sanitize(Join(ydl.artists, "&")) + ("&" + Sanitize(DotExt(ext))))))
  {
    var ydl := c.youtubeDls[index % |c.youtubeDls|];
    var tag := Contents.ToString(ydl);
    var t := tag[..|tag| - 1];
    var e := DotExt(ext);
    assert tag == t + "&";
    assert ToString(c) + " " + tag + e == ToString(c) + (" " + (t + ("&" + e)));
    SanitizeSplitsAtSpace(ToString(c), t + ("&" + e));
    SanitizeSplitsAtAmpersand(t, e);
    assert Contents.ToString(ydl) == Contents.ToString(Contents.Content("", ydl.artists, "", false));
    SanitizeTag(ydl.artists);
  }

  /** An extension free of spaces, `O` and `N` survives sanitising, so the
      file name ends with the last artist tag's `&` and the dotted
      extension (for `mp3`: `&.mp3`). */
  lemma FilenameKeepsExtension(c: Composition, index: int, ext: string)
    requires c.youtubeDls != []
    requires ' ' !in ext && 'O' !in ext && 'N' !in ext
    ensures EndsWith(Filename(c, index, ext).value, "&" + DotExt(ext))
  {
    var ydl := c.youtubeDls[index % |c.youtubeDls|];
    var tag := Contents.ToString(ydl);
    var e := DotExt(ext);
    var a := ToString(c) + " " + tag[..|tag| - 1];
    assert tag == tag[..|tag| - 1] + "&";
    assert ToString(c) + " " + tag + e == a + ("&" + e);
    SanitizeSplitsAtAmpersand(a, e);
    assert ' ' !in e && 'O' !in e && 'N' !in e;
    ReplaceAbsent(e, " ", "_");
    ReplaceAbsent(e, "Op.", "");
    ReplaceAbsent(e, "No.", "");
    var r := Sanitize(a) + ("&" + e);
    assert r[|r| - |"&" + e|..] == "&" + e;
  }
}

=== FILE: contents.dfy ===
/** One YouTube recording of a composition (`Content`), and its
    download/remove life cycle over an explicit set of existing files. */
module Contents {
  import opened Errors
  import opened Strings

  const UrlPrefix := "https://youtu.be/"
  const DownloadDir := "/tmp/"
  const Mp3 := ".mp3"

  /** A recording: its YouTube id, its performers, where its audio file is
      (or will be) kept, and whether a download has completed. */
  datatype Content = Content(id: string, artists: seq<string>, path: string, downloaded: bool) {
    /** The YouTube short link, derived from the id. */
    function Url(): string {
      UrlPrefix + id
    }
  }

  /** `Content.__dict__()`: the two constructor arguments. */
  datatype ContentDict = ContentDict(id: string, artists: seq<string>)

  /** Where a recording is saved when no path is given. */
  function DefaultPath(id: string): string {
    DownloadDir + id + Mp3
  }

  /** `Content(id, artists)`: not downloaded, and parked at the default
      path, which already carries the `.mp3` extension. */
  function NewContent(id: string, artists: seq<string>): (c: Content)
    ensures c.id == id && c.artists == artists
    ensures !c.downloaded
    ensures |c.path| == |DownloadDir| + |id| + |Mp3|
    ensures StartsWith(c.path, DownloadDir) && EndsWith(c.path, Mp3)
    ensures c.path[|DownloadDir|..|c.path| - |Mp3|] == id
  {
    var c := Content(id, artists, DefaultPath(id), false);
    assert c.path[|DownloadDir|..|c.path| - |Mp3|] == id;
    c
  }

  /** The id back from a URL, if the URL is a YouTube short link. */
  function IdOfUrl(url: string): Option<string> {
    if StartsWith(url, UrlPrefix) then Some(url[|UrlPrefix|..]) else None
  }

  /** The id can be read back from the URL, so distinct ids give distinct URLs. */
  lemma UrlIdentifiesContent(c: Content, d: Content)
    ensures IdOfUrl(c.Url()) == Some(c.id)
    ensures c.Url() == d.Url() ==> c.id == d.id
  {
    assert c.Url()[|UrlPrefix|..] == c.id;
    assert d.Url()[|UrlPrefix|..] == d.id;
  }

  function ToDict(c: Content): ContentDict {
    ContentDict(c.id, c.artists)
  }

  function FromDict(d: ContentDict): Content {
    NewContent(d.id, d.artists)
  }

  /** Rebuilding a content from its dictionary keeps id, artists and URL and
      resets it to the fresh, not-downloaded state; a fresh content is
      reproduced exactly. */
  lemma DictRoundTrip(c: Content)
    ensures FromDict(ToDict(c)).id == c.id
    ensures FromDict(ToDict(c)).artists == c.artists
    ensures FromDict(ToDict(c)).Url() == c.Url()
    ensures FromDict(ToDict(c)) == NewContent(c.id, c.artists)
    ensures c == NewContent(c.id, c.artists) ==> FromDict(ToDict(c)) == c
  {
  }

  /** `str(content)`: the artists joined by `&`, a trailing `&`, with every
      space turned into `_`. The tag has no spaces, keeps the length of the
      joined text plus one, ends with `&`, is exactly `&` when there are no
      artists, has `_` where the joined text has a space and leaves every
      other character of the joined text in place. */
  function ToString(c: Content): (r: string)
    ensures ' ' !in r
    ensures |r| == |Join(c.artists, "&")| + 1
    ensures r[|r| - 1] == '&'
    ensures c.artists == [] ==> r == "&"
    ensures forall k :: 0 <= k < |r| - 1 && Join(c.artists, "&")[k] != ' ' ==> r[k] == Join(c.artists, "&")[k]
    ensures forall k :: 0 <= k < |r| - 1 && Join(c.artists, "&")[k] == ' ' ==> r[k] == '_'
  {
    var joined := Join(c.artists, "&") + "&";
    var r := Replace(joined, " ", "_");
    ReplaceOneChar(joined, ' ', '_');
    ReplaceOneCharRemoves(joined, ' ', '_');
    assert forall k :: 0 <= k < |r| - 1 ==> joined[k] == Join(c.artists, "&")[k];
    assert r[|r| - 1] == '&';
    r
  }

  /** The path with `.mp3` appended unless it already ends with it. */
  function WithMp3(path: string): (r: string)
    ensures EndsWith(r, Mp3)
    ensures r == path || r == path + Mp3
  {
    if EndsWith(path, Mp3) then path else path + Mp3
  }

  /** Normalising an already normalised path changes nothing, and a path
      already ending in `.mp3` is left alone. */
  lemma WithMp3Idempotent(path: string)
    ensures WithMp3(WithMp3(path)) == WithMp3(path)
    ensures EndsWith(path, Mp3) <==> WithMp3(path) == path
  {
  }

  /** The path `download` writes to: the given path, or else the content's
      current path, normalised to end in `.mp3`. */
  function EffectivePath(c: Content, path: Option<string>): (r: string)
    ensures var base := if path.Some? then path.value else c.path;
      && EndsWith(r, Mp3)
      && (r == base || r == base + Mp3)
      && (EndsWith(base, Mp3) ==> r == base)
    ensures path.None? && c == NewContent(c.id, c.artists) ==> r == DefaultPath(c.id)
  {
    match path
    case Some(p) => WithMp3(p)
    case None => WithMp3(c.path)
  }

  /** A content together with the set of files that exist. */
  datatype State = State(content: Content, files: set<string>)

  /** The invariant `download` and `remove` keep: a content marked as
      downloaded has its file on disk. */
  predicate Consistent(s: State) {
    s.content.downloaded ==> s.content.path in s.files
  }

  /** The extractor's output template: every `.mp3` in the path becomes
      the placeholder for the extension of the downloaded stream. */
  const ExtPlaceholder := ".%(ext)s"

  function OutputTemplate(p: string): string {
    Replace(p, Mp3, ExtPlaceholder)
  }

  /** Whether the extracted audio ends up at `p` itself: the audio step
      turns the final extension into `.mp3`, which gives back `p` exactly
      when the template is `p` with only its final `.mp3` made a
      placeholder. Any earlier `.mp3` in the path has been rewritten too,
      and the file lands elsewhere. */
  predicate SavesAt(p: string) {
    EndsWith(p, Mp3) && OutputTemplate(p) == p[..|p| - |Mp3|] + ExtPlaceholder
  }

  /** `content.download(path, force)`. `extractorOk` stands for whether the
      external extractor succeeds. A failure returns no new state: the
      content and the files are as before. On success the content is marked
      downloaded at the effective path, but that file exists afterwards only
      when the extractor saves there. */
  function Download(s: State, path: Option<string>, force: bool, extractorOk: bool): (r: Result<State>)
    ensures var p := EffectivePath(s.content, path);
      && (r.Err? <==> (!force && p in s.files) || !extractorOk)
      && (r.Err? && !force && p in s.files ==> r.error == DownloadFails(FileAlreadyExists))
      && (r.Err? && (force || p !in s.files) ==> r.error == DownloadFails(ExtractorFailed))
      && (r.Ok? ==> r.value.content.path == p && r.value.content.downloaded)
      && (r.Ok? ==> r.value.files == s.files + (if SavesAt(p) then {p} else {}))
    ensures r.Ok? ==> r.value.content.id == s.content.id && r.value.content.artists == s.content.artists
    ensures r.Ok? ==> (Consistent(r.value) <==> SavesAt(r.value.content.path) || r.value.content.path in s.files)
  {
    var p := EffectivePath(s.content, path);
    if !force && p in s.files then Err(DownloadFails(FileAlreadyExists))
    else if !extractorOk then Err(DownloadFails(ExtractorFailed))
    else Ok(State(s.content.(path := p, downloaded := true), s.files + (if SavesAt(p) then {p} else {})))
  }

  /** A default path whose id has no dot is saved where it says. */
  lemma {:induction false} DefaultPathSavesAt(id: string)
    requires '.' !in id
    ensures SavesAt(DefaultPath(id))
  {
    var stem := DownloadDir + id;
    assert '.' !in stem by {
      assert forall k :: 0 <= k < |DownloadDir| ==> DownloadDir[k] != '.';
      assert forall k :: 0 <= k < |stem| ==> stem[k] == (if k < |DownloadDir| then DownloadDir[k] else id[k - |DownloadDir|]);
    }
    assert DefaultPath(id) == stem + Mp3;
    ReplaceFinalOnly(stem, Mp3, ExtPlaceholder);
    assert (stem + Mp3)[..|stem + Mp3| - |Mp3|] == stem;
  }

  /** A directory named with `.mp3` inside it sends the file elsewhere: the
      template for `/m.mp3s/a.mp3` is `/m.%(ext)ss/a.%(ext)s`. */
  lemma MisplacedOutput()
    ensures !SavesAt("/m.mp3s/a.mp3")
  {
    var p := "/m.mp3s/a.mp3";
    var t := "s/a.mp3";
    assert p == "/m" + (Mp3 + t);
    assert p[..4][0] == '/' && Mp3[0] == '.';
    assert p[1..][..4][0] == 'm';
    assert p[1..][1..] == Mp3 + t;
    assert (Mp3 + t)[..4] == Mp3;
    assert (Mp3 + t)[4..] == t;
    assert OutputTemplate(p)[3] == '%';
    assert (p[..|p| - |Mp3|] + ExtPlaceholder)[3] == 'm';
  }

  /** `content.remove()`: fails unless the content was downloaded and its
      file still exists; otherwise deletes that one file and clears the flag. */
  function Remove(s: State): (r: Result<State>)
    ensures r.Err? <==> !s.content.downloaded || s.content.path !in s.files
    ensures r.Err? && !s.content.downloaded ==> r.error == FileRemoveFails(NoDownloadedFile)
    ensures r.Err? && s.content.downloaded ==> r.error == FileRemoveFails(FileDoesNotExist)
    ensures r.Ok? ==> r.value.content == s.content.(downloaded := false)
    ensures r.Ok? ==> r.value.files == s.files - {s.content.path}
    ensures r.Ok? ==> Consistent(r.value)
  {
    if !s.content.downloaded then Err(FileRemoveFails(NoDownloadedFile))
    else if s.content.path !in s.files then Err(FileRemoveFails(FileDoesNotExist))
    else Ok(State(s.content.(downloaded := false), s.files - {s.content.path}))
  }

  /** A fresh content is consistent with any file set. */
  lemma NewContentConsistent(id: string, artists: seq<string>, files: set<string>)
    ensures Consistent(State(NewContent(id, artists), files))
  {
  }

  /** On a consistent state, `remove` fails only because nothing was
      downloaded. */
  lemma RemoveOnConsistent(s: State)
    requires Consistent(s)
    ensures Remove(s).Err? <==> !s.content.downloaded
  {
  }

  /** A download to a path where the extractor saves, followed by a remove,
      succeeds, deletes exactly the downloaded file and leaves the content at
      its new path, not downloaded. */
  lemma DownloadThenRemove(s: State, path: Option<string>, force: bool)
    requires Download(s, path, force, true).Ok?
    requires SavesAt(EffectivePath(s.content, path))
    ensures var s1 := Download(s, path, force, true).value;
      && Remove(s1).Ok?
      && Remove(s1).value.files == s.files + {EffectivePath(s.content, path)} - {EffectivePath(s.content, path)}
      && Remove(s1).value.content == s.content.(path := EffectivePath(s.content, path), downloaded := false)
  {
  }

  /** When the extractor saves elsewhere and no file was at the path before,
      the download reports success but the following remove fails because
      the file does not exist. */
  lemma DownloadElsewhereThenRemove(s: State, path: Option<string>, force: bool)
    requires Download(s, path, force, true).Ok?
    requires !SavesAt(EffectivePath(s.content, path)) && EffectivePath(s.content, path) !in s.files
    ensures Remove(Download(s, path, force, true).value) == Err(FileRemoveFails(FileDoesNotExist))
  {
  }
}

=== FILE: decimal.dfy ===
/** Python's `str(n)` for integers (`f"{n}"`), and a reader for it. */
module Decimal {
  import opened Errors

  predicate IsDigit(c: char) {
    '0' <= c <= '9'
  }

  predicate AllDigits(s: string) {
    forall k :: 0 <= k < |s| ==> IsDigit(s[k])
  }

  function DigitChar(d: nat): (c: char)
    requires d < 10
    ensures IsDigit(c) && c as int - '0' as int == d
  {
    ('0' as int + d) as char
  }

  /** The numeric value of a string of decimal digits. */
  function DigitsValue(s: string): nat
    requires AllDigits(s)
    decreases |s|
  {
    if s == [] then 0
    else DigitsValue(s[..|s| - 1]) * 10 + (s[|s| - 1] as int - '0' as int)
  }

  /** Decimal digits of a natural number, most significant first and
      without leading zeros. */
  function NatToDecimal(n: nat): (r: string)
    ensures r != [] && AllDigits(r)
    ensures r[0] == '0' ==> r == "0"
    ensures DigitsValue(r) == n
    decreases n
  {
    if n < 10 then [DigitChar(n)]
    else
      var front := NatToDecimal(n / 10);
      var r := front + [DigitChar(n % 10)];
      assert r[..|r| - 1] == front;
      r
  }

  /** Python's `str(n)`: a minus sign for negative numbers, then the digits
      of the magnitude. The text is never empty, contains no space, dot or
      `&` (only `-` and digits), starts with `-` exactly for negative
      numbers, and after that sign holds the digits of `|n|` with no
      leading zero. */
  function IntToDecimal(n: int): (r: string)
    ensures r != []
    ensures ' ' !in r && '.' !in r && '&' !in r
    ensures forall ch :: ch in r ==> ch == '-' || IsDigit(ch)
    ensures n < 0 <==> r[0] == '-'
    ensures AllDigits(r[if n < 0 then 1 else 0..])
    ensures var d := r[if n < 0 then 1 else 0..];
      && d != [] && DigitsValue(d) == (if n < 0 then -n else n)
      && (d[0] == '0' ==> d == "0")
  {
    var d := NatToDecimal(if n < 0 then -n else n);
    assert forall k :: 0 <= k < |d| ==> IsDigit(d[k]);
    assert IsDigit(d[0]);
    var r := if n < 0 then "-" + d else d;
    assert r[if n < 0 then 1 else 0..] == d;
    assert forall ch :: ch in r ==> ch == '-' || ch in d;
    r
  }

  /** Length of the longest all-digit prefix of `s`. */
  function DigitSpan(s: string): (k: nat)
    ensures k <= |s| && AllDigits(s[..k])
    ensures k < |s| ==> !IsDigit(s[k])
    decreases |s|
  {
    if s == [] || !IsDigit(s[0]) then 0
    else
      var k := 1 + DigitSpan(s[1..]);
      assert s[..k] == [s[0]] + s[1..][..k - 1];
      k
  }

  lemma DigitSpanOfDigits(d: string, t: string)
    requires AllDigits(d)
    requires t == [] || !IsDigit(t[0])
    ensures DigitSpan(d + t) == |d|
    decreases |d|
  {
    if d != [] {
      assert (d + t)[1..] == d[1..] + t;
      DigitSpanOfDigits(d[1..], t);
    } else {
      assert d + t == t;
    }
  }

  /** Digits as `str` writes them: not empty, and no leading zero unless
      the number is zero itself. */
  predicate Canonical(d: string) {
    d != [] && AllDigits(d) && (d[0] == '0' ==> d == "0")
  }

  /** Reads the run of digits at the start of `s`, if there is one and it
      has no leading zero: its value and its length. */
  function ReadDigits(s: string): (r: Option<(nat, nat)>)
    ensures r.Some? ==> 0 < r.value.1 <= |s| && Canonical(s[..r.value.1])
    ensures r.Some? ==> r.value.0 == DigitsValue(s[..r.value.1])
  {
    var k := DigitSpan(s);
    if k == 0 || (s[0] == '0' && k > 1) then None
    else
      assert s[..k][0] == s[0];
      Some((DigitsValue(s[..k]), k))
  }

  /** Reads an integer written as by `IntToDecimal` at the start of `s`;
      returns its value and the number of characters it occupies. Padded
      digits and `-0`, which `str` never writes, are rejected. */
  function ReadInt(s: string): (r: Option<(int, nat)>)
    ensures r.Some? ==> 0 < r.value.1 <= |s|
  {
    if |s| > 0 && s[0] == '-' then
      match ReadDigits(s[1..])
      case None => None
      case Some((v, k)) => if v == 0 then None else Some((0 - v as int, 1 + k))
    else
      match ReadDigits(s)
      case None => None
      case Some((v, k)) => Some((v as int, k))
  }

  /** `ReadInt` recovers the integer from its text, whatever follows it as
      long as it does not start with a digit. */
  lemma {:induction false} ReadIntRoundTrip(n: int, t: string)
    requires t == [] || !IsDigit(t[0])
    ensures ReadInt(IntToDecimal(n) + t) == Some((n, |IntToDecimal(n)|))
  {
    if n < 0 {
      ReadIntRoundTripNegative(n, t);
    } else {
      ReadIntRoundTripNonNegative(n, t);
    }
  }

  lemma ReadIntRoundTripNegative(n: int, t: string)
    requires n < 0
    requires t == [] || !IsDigit(t[0])
    ensures ReadInt(IntToDecimal(n) + t) == Some((n, |IntToDecimal(n)|))
  {
    var d := NatToDecimal(-n);
    var s := IntToDecimal(n) + t;
    assert s == "-" + (d + t);
    ReadDigitsOf(d, t);
    ReadIntNegative(d + t, -n, |d|);
  }

  lemma ReadIntRoundTripNonNegative(n: int, t: string)
    requires n >= 0
    requires t == [] || !IsDigit(t[0])
    ensures ReadInt(IntToDecimal(n) + t) == Some((n, |IntToDecimal(n)|))
  {
    var d := NatToDecimal(n);
    ReadDigitsOf(d, t);
    assert (d + t)[0] == d[0];
  }

  lemma ReadIntNegative(x: string, v: nat, k: nat)
    requires ReadDigits(x) == Some((v, k)) && v != 0
    ensures ReadInt("-" + x) == Some((0 - v as int, 1 + k))
  {
    assert ("-" + x)[1..] == x;
  }

  /** A run of digits followed by a non-digit is read back whole. */
  lemma ReadDigitsOf(d: string, t: string)
    requires Canonical(d)
    requires t == [] || !IsDigit(t[0])
    ensures ReadDigits(d + t) == Some((DigitsValue(d), |d|))
  {
    DigitSpanOfDigits(d, t);
    assert (d + t)[..|d|] == d;
    assert (d + t)[0] == d[0];
  }

  /** Whatever `ReadInt` accepts is exactly the text `str` writes for the
      value it returns: the reader and `IntToDecimal` are inverse. */
  lemma ReadIntExact(s: string, n: int, k: nat)
    requires ReadInt(s) == Some((n, k))
    ensures k <= |s| && s[..k] == IntToDecimal(n)
  {
    if |s| > 0 && s[0] == '-' {
      var x := s[1..];
      var j := k - 1;
      assert ReadDigits(x) == Some((-n, j));
      CanonicalIsDecimal(x[..j]);
      assert s[..k] == "-" + x[..j];
    } else {
      assert ReadDigits(s) == Some((n, k));
      CanonicalIsDecimal(s[..k]);
    }
  }

  /** Canonical digits are the decimal text of their own value. */
  lemma {:induction false} CanonicalIsDecimal(d: string)
    requires Canonical(d)
    ensures d == NatToDecimal(DigitsValue(d))
    decreases |d|
  {
    var last := d[|d| - 1];
    var front := d[..|d| - 1];
    var v := DigitsValue(d);
    if |d| == 1 {
      assert front == [];
      assert DigitsValue(front) == 0;
      assert v == last as int - '0' as int < 10;
      assert DigitChar(v) as int == last as int;
    } else {
      assert front[0] == d[0] != '0';
      assert forall k :: 0 <= k < |front| ==> front[k] == d[k];
      CanonicalIsDecimal(front);
      LeadingDigitPositive(front);
      var f := DigitsValue(front);
      assert v == f * 10 + (last as int - '0' as int);
      assert v / 10 == f && v % 10 == last as int - '0' as int;
      assert DigitChar(v % 10) == last;
      assert d == front + [last];
    }
  }

  /** Digits that do not start with `0` denote a positive number. */
  lemma {:induction false} LeadingDigitPositive(d: string)
    requires d != [] && AllDigits(d) && d[0] != '0'
    ensures DigitsValue(d) >= 1
    decreases |d|
  {
    if |d| > 1 {
      var front := d[..|d| - 1];
      assert front[0] == d[0];
      assert forall k :: 0 <= k < |front| ==> front[k] == d[k];
      LeadingDigitPositive(front);
    }
  }
}

=== FILE: errors.dfy ===
/** The failures the library can raise, and the Option/Result wrappers the
    model uses in place of Python's `None` and exceptions. */
module Errors {

  datatype Option<+T> = None | Some(value: T)

  /** Why `Content.download` raised `DownloadFails`. */
  datatype DownloadFailure = FileAlreadyExists | ExtractorFailed

  /** Why `Content.remove` raised `FileRemoveFails`. */
  datatype RemoveFailure = NoDownloadedFile | FileDoesNotExist

  /** The exception classes of the library (`DownloadFails`, `FileRemoveFails`,
      `InvalidHashValue`), plus the `ZeroDivisionError` Python raises for
      `index % 0` and the `IndexError` `random.choice` raises on an empty
      list. */
  datatype Error =
    | DownloadFails(download: DownloadFailure)
    | FileRemoveFails(remove: RemoveFailure)
    | InvalidHashValue
    | DivByZero
    | EmptyChoice

  /** A value, or the exception raised instead of returning one. */
  datatype Result<+T> = Ok(value: T) | Err(error: Error)
}

=== FILE: strings.dfy ===
/** The few Python `str` operations the library relies on: `startswith`,
    `endswith`, `replace` and `join`. */
module Strings {

  predicate StartsWith(s: string, prefix: string) {
    |prefix| <= |s| && s[..|prefix|] == prefix
  }

  predicate EndsWith(s: string, suffix: string) {
    |suffix| <= |s| && s[|s| - |suffix|..] == suffix
  }

  /** Python's `s.replace(pat, rep)`: a single left-to-right pass that
      replaces every non-overlapping occurrence of `pat`. An empty `pat`
      matches before every character and at the end, as in Python. */
  function Replace(s: string, pat: string, rep: string): string
    decreases |s|
  {
    if pat == [] then
      if s == [] then rep else rep + [s[0]] + Replace(s[1..], pat, rep)
    else if |s| < |pat| then s
    else if s[..|pat|] == pat then rep + Replace(s[|pat|..], pat, rep)
    else [s[0]] + Replace(s[1..], pat, rep)
  }

  /** A replacement as long as the pattern keeps the length, a shorter one
      never lengthens the text, and the empty pattern inserts `rep` at all
      `|s| + 1` gaps. */
  lemma {:induction false} ReplaceLength(s: string, pat: string, rep: string)
    ensures pat != [] && |rep| == |pat| ==> |Replace(s, pat, rep)| == |s|
    ensures pat != [] && |rep| <= |pat| ==> |Replace(s, pat, rep)| <= |s|
    ensures pat == [] ==> |Replace(s, pat, rep)| == |s| + (|s| + 1) * |rep|
    decreases |s|
  {
    if pat == [] {
      if s != [] {
        ReplaceLength(s[1..], pat, rep);
      }
    } else if |s| >= |pat| {
      if s[..|pat|] == pat {
        ReplaceLength(s[|pat|..], pat, rep);
      } else {
        ReplaceLength(s[1..], pat, rep);
      }
    }
  }

  /** Python's `sep.join(parts)`: empty for no parts, otherwise it starts
      with the first part and ends with the last. */
  function Join(parts: seq<string>, sep: string): (r: string)
    ensures parts == [] ==> r == ""
    ensures parts != [] ==> StartsWith(r, parts[0]) && EndsWith(r, parts[|parts| - 1])
    decreases |parts|
  {
    if parts == [] then ""
    else if |parts| == 1 then parts[0]
    else parts[0] + sep + Join(parts[1..], sep)
  }

  /** Joining one more part appends the separator and that part: the join
      holds every part, in order, with `sep` between neighbours. */
  lemma {:induction false} JoinAppend(parts: seq<string>, p: string, sep: string)
    requires parts != []
    ensures Join(parts + [p], sep) == Join(parts, sep) + sep + p
    decreases |parts|
  {
    var ps := parts + [p];
    if |parts| == 1 {
      assert ps[1..] == [p];
    } else {
      assert ps[1..] == parts[1..] + [p];
      JoinAppend(parts[1..], p, sep);
    }
  }

  /** The sum of the lengths of `parts`. */
  function TotalLength(parts: seq<string>): nat
    decreases |parts|
  {
    if parts == [] then 0 else |parts[0]| + TotalLength(parts[1..])
  }

  /** The join is as long as all the parts plus one separator between
      each pair of neighbours. */
  lemma {:induction false} JoinLength(parts: seq<string>, sep: string)
    requires parts != []
    ensures |Join(parts, sep)| == TotalLength(parts) + (|parts| - 1) * |sep|
    decreases |parts|
  {
    if |parts| == 1 {
      assert TotalLength(parts[1..]) == 0;
    } else {
      var rest := parts[1..];
      JoinLength(rest, sep);
      assert Join(parts, sep) == parts[0] + sep + Join(rest, sep);
      assert TotalLength(parts) == |parts[0]| + TotalLength(rest);
      var m := |rest| - 1;
      assert (m + 1) * |sep| == m * |sep| + |sep|;
    }
  }

  /** Replacing one character by another is a character-wise substitution:
      the length is kept and every other character stays where it was. */
  lemma {:induction false} ReplaceOneChar(s: string, a: char, b: char)
    ensures |Replace(s, [a], [b])| == |s|
    ensures forall k :: 0 <= k < |s| ==>
      Replace(s, [a], [b])[k] == (if s[k] == a then b else s[k])
    decreases |s|
  {
    if s != [] {
      ReplaceOneChar(s[1..], a, b);
      var tail := Replace(s[1..], [a], [b]);
      if s[0] == a {
        assert s[..1] == [a];
        assert Replace(s, [a], [b]) == [b] + tail;
      } else {
        assert s[..1] != [a];
        assert Replace(s, [a], [b]) == [s[0]] + tail;
      }
    }
  }

  /** A single-character replace works on the two halves of a text
      independently. */
  lemma ReplaceOneCharAppend(s: string, t: string, a: char, b: char)
    ensures Replace(s + t, [a], [b]) == Replace(s, [a], [b]) + Replace(t, [a], [b])
  {
    ReplaceOneChar(s + t, a, b);
    ReplaceOneChar(s, a, b);
    ReplaceOneChar(t, a, b);
  }

  /** After replacing `a` by a different character, `a` no longer occurs,
      and the length is unchanged. */
  lemma ReplaceOneCharRemoves(s: string, a: char, b: char)
    requires a != b
    ensures a !in Replace(s, [a], [b])
    ensures |Replace(s, [a], [b])| == |s|
  {
    ReplaceOneChar(s, a, b);
  }

  /** `replace` introduces no character that is neither in the input nor in
      the replacement text. */
  lemma {:induction false} ReplaceChars(s: string, pat: string, rep: string, c: char)
    requires c in Replace(s, pat, rep)
    ensures c in s || c in rep
    decreases |s|
  {
    if pat == [] {
      if s != [] {
        if c in Replace(s[1..], pat, rep) {
          ReplaceChars(s[1..], pat, rep, c);
        }
      }
    } else if |s| < |pat| {
    } else if s[..|pat|] == pat {
      if c in Replace(s[|pat|..], pat, rep) {
        ReplaceChars(s[|pat|..], pat, rep, c);
        assert c in s[|pat|..] ==> c in s;
      }
    } else {
      if c in Replace(s[1..], pat, rep) {
        ReplaceChars(s[1..], pat, rep, c);
        assert c in s[1..] ==> c in s;
      }
    }
  }

  /** Deleting a pattern (replacing it by "") cannot bring back a character
      that did not occur. */
  lemma DeleteKeepsAbsent(s: string, pat: string, c: char)
    requires c !in s
    ensures c !in Replace(s, pat, "")
  {
    if c in Replace(s, pat, "") {
      ReplaceChars(s, pat, "", c);
    }
  }

  /** When the first character of `t` does not occur in a non-empty `pat`, no
      occurrence of `pat` can straddle the seam, so `replace` works on the
      two halves independently. */
  lemma {:induction false} ReplaceSplits(s: string, t: string, pat: string, rep: string)
    requires pat != [] && t != [] && t[0] !in pat
    ensures Replace(s + t, pat, rep) == Replace(s, pat, rep) + Replace(t, pat, rep)
    decreases |s|
  {
    if s == [] {
      assert s + t == t;
    } else if |s| < |pat| {
      // every window starting in s reaches t[0], so nothing in s matches
      ShortPrefixCopied(s, t, pat, rep);
    } else if s[..|pat|] == pat {
      var rest := s[|pat|..];
      ReplaceMatchStep(s, t, pat, rep);
      ReplaceSplits(rest, t, pat, rep);
      AppendAssoc(rep, Replace(rest, pat, rep), Replace(t, pat, rep));
    } else {
      var rest := s[1..];
      ReplaceSkipStep(s, t, pat, rep);
      ReplaceSplits(rest, t, pat, rep);
      AppendAssoc([s[0]], Replace(rest, pat, rep), Replace(t, pat, rep));
    }
  }

  lemma AppendAssoc(a: string, b: string, c: string)
    ensures a + (b + c) == (a + b) + c
  {
  }

  /** A match at the start of `s` is also one at the start of `s + t`. */
  lemma ReplaceMatchStep(s: string, t: string, pat: string, rep: string)
    requires pat != [] && |s| >= |pat| && s[..|pat|] == pat
    ensures Replace(s, pat, rep) == rep + Replace(s[|pat|..], pat, rep)
    ensures Replace(s + t, pat, rep) == rep + Replace(s[|pat|..] + t, pat, rep)
  {
    var st := s + t;
    assert st[..|pat|] == pat;
    assert st[|pat|..] == s[|pat|..] + t;
  }

  /** No match at the start of `s` means none at the start of `s + t`. */
  lemma ReplaceSkipStep(s: string, t: string, pat: string, rep: string)
    requires pat != [] && |s| >= |pat| && s[..|pat|] != pat
    ensures Replace(s, pat, rep) == [s[0]] + Replace(s[1..], pat, rep)
    ensures Replace(s + t, pat, rep) == [s[0]] + Replace(s[1..] + t, pat, rep)
  {
    var st := s + t;
    assert st[..|pat|] == s[..|pat|];
    assert st[1..] == s[1..] + t;
  }

  /** A prefix shorter than `pat`, followed by a character foreign to `pat`,
      is copied unchanged. */
  lemma {:induction false} ShortPrefixCopied(s: string, t: string, pat: string, rep: string)
    requires pat != [] && t != [] && t[0] !in pat && |s| < |pat|
    ensures Replace(s + t, pat, rep) == s + Replace(t, pat, rep)
    decreases |s|
  {
    if s == [] {
      assert s + t == t;
    } else {
      var st := s + t;
      calc {
        Replace(st, pat, rep);
        { NoMatchAcrossSeam(s, t, pat); ReplaceCopiesHead(st, pat, rep); }
        [s[0]] + Replace(st[1..], pat, rep);
        { assert st[1..] == s[1..] + t; ShortPrefixCopied(s[1..], t, pat, rep); }
        [s[0]] + (s[1..] + Replace(t, pat, rep));
        { assert s == [s[0]] + s[1..]; }
        s + Replace(t, pat, rep);
      }
    }
  }

  /** A window that reaches `t[0]`, a character foreign to `pat`, is not `pat`. */
  lemma NoMatchAcrossSeam(s: string, t: string, pat: string)
    requires t != [] && t[0] !in pat && |s| < |pat|
    ensures |s + t| >= |pat| ==> (s + t)[..|pat|] != pat
  {
    if |s + t| >= |pat| {
      assert (s + t)[..|pat|][|s|] == t[0];
      assert pat[|s|] in pat;
    }
  }

  /** Where no match starts, `replace` copies the first character. */
  lemma ReplaceCopiesHead(s: string, pat: string, rep: string)
    requires pat != [] && s != []
    requires |s| >= |pat| ==> s[..|pat|] != pat
    ensures Replace(s, pat, rep) == [s[0]] + Replace(s[1..], pat, rep)
  {
    if |s| < |pat| {
      assert Replace(s[1..], pat, rep) == s[1..];
      assert s == [s[0]] + s[1..];
    }
  }

  /** A leading character that cannot start `pat` is copied as is. */
  lemma ReplaceSkipsForeign(c: char, e: string, pat: string, rep: string)
    requires pat != [] && c != pat[0]
    ensures Replace([c] + e, pat, rep) == [c] + Replace(e, pat, rep)
  {
    var s := [c] + e;
    assert s[1..] == e;
    if |s| >= |pat| {
      assert s[..|pat|][0] == c;
    }
  }

  /** A text that starts with `pat` has that occurrence replaced first. */
  lemma ReplaceHeadMatch(pat: string, b: string, rep: string)
    requires pat != []
    ensures Replace(pat + b, pat, rep) == rep + Replace(b, pat, rep)
  {
    var s := pat + b;
    assert s[..|pat|] == pat && s[|pat|..] == b;
  }

  /** A prefix free of `pat[0]` is copied: no occurrence can start in it. */
  lemma {:induction false} ReplaceForeignPrefix(p: string, b: string, pat: string, rep: string)
    requires pat != [] && pat[0] !in p
    ensures Replace(p + b, pat, rep) == p + Replace(b, pat, rep)
    decreases |p|
  {
    if p == [] {
      assert p + b == b;
    } else {
      var q := p[1..];
      calc {
        Replace(p + b, pat, rep);
        { assert p + b == [p[0]] + (q + b); }
        Replace([p[0]] + (q + b), pat, rep);
        { ReplaceSkipsForeign(p[0], q + b, pat, rep); }
        [p[0]] + Replace(q + b, pat, rep);
        { assert pat[0] !in q; ReplaceForeignPrefix(q, b, pat, rep); }
        [p[0]] + (q + Replace(b, pat, rep));
        { AppendAssoc([p[0]], q, Replace(b, pat, rep)); assert [p[0]] + q == p; }
        p + Replace(b, pat, rep);
      }
    }
  }

  /** Text in which the first character of `pat` never occurs is left
      unchanged by `replace`. */
  lemma {:induction false} ReplaceAbsent(s: string, pat: string, rep: string)
    requires pat != [] && pat[0] !in s
    ensures Replace(s, pat, rep) == s
    decreases |s|
  {
    if s != [] {
      assert pat[0] !in s[1..];
      ReplaceAbsent(s[1..], pat, rep);
      if |s| >= |pat| {
        assert s[..|pat|][0] == s[0];
      }
      assert s == [s[0]] + s[1..];
    }
  }

  /** A text free of `pat[0]` followed by one `pat`: only that final
      occurrence is replaced. */
  lemma {:induction false} ReplaceFinalOnly(s: string, pat: string, rep: string)
    requires pat != [] && pat[0] !in s
    ensures Replace(s + pat, pat, rep) == s + rep
    decreases |s|
  {
    if s == [] {
      assert s + pat == pat;
      assert Replace([], pat, rep) == [];
    } else {
      var sp := s + pat;
      assert sp[..|pat|][0] == s[0];
      calc {
        Replace(sp, pat, rep);
        { ReplaceCopiesHead(sp, pat, rep); }
        [s[0]] + Replace(sp[1..], pat, rep);
        { assert sp[1..] == s[1..] + pat; assert pat[0] !in s[1..]; ReplaceFinalOnly(s[1..], pat, rep); }
        [s[0]] + (s[1..] + rep);
        { assert s == [s[0]] + s[1..]; }
        s + rep;
      }
    }
  }
}
